=== FILE: README.md ===
# Multi-connection echo server, modelled in Dafny

This project models the core of `multiconn-server.py`: a single-threaded TCP
echo server built on a readiness selector. The listening socket is
registered for read readiness with a `None` attachment. Each accepted client
is registered for read and write readiness with a record holding its
address `addr`, an unused `inb` and the pending-echo buffer `outb`. The
event loop routes every ready key to the acceptor or to the client handler.
The client handler reads first (append to `outb`, or close on an empty read)
and then writes (one `send`, dropping the bytes sent from the front of
`outb`).

Sockets and the selector's kernel side are abstracted away:

- descriptors are abstract ids (`Selector.Fd`);
- the registration table is a map from descriptor to interest set and attachment (`Selector.Registry`);
- every result the operating system would return comes in as an `Io` value chosen by the environment: the descriptor and address `accept` yields, the bytes `recv(1024)` returns (at most 1024, possibly none) and how many bytes `send` takes.

The `send` count is clipped to the pending buffer, so every count from 0 to `|outb|` is covered. An event is legal (`Audit.Legal`) when the selector could report its mask for the current table. For a listener event, the descriptor `accept` yields must also not be in the table when that event is dispatched, which may be after an earlier event of the same poll closed it. The table holds only open descriptors, because a client is unregistered before it is closed, and the kernel never hands out a descriptor that is still open.

A poll result (`Audit.SelectBatch`) is a sequence of ready keys, each registered at poll time for the events it reports. It may report a descriptor more than once: kqueue, the default selector on macOS and BSD, returns a socket that is readable and writable as two keys. The loop hands each key to the handler even when an earlier key of the same poll has closed its connection. Such a stale key (`Server.Stale`) runs on the closed socket with the record as it was at the close.

Modules:

- `Wrappers`: the `Result` type.
- `Selector`: register and unregister with the selector's error conditions, plus interest masks as two-bit vectors.
- `Connection`: the client record, one `send` (`Transmit`), and repeated sends (`Drain`) with their convergence.
- `Server`: the listener registration, `Accept`, the client handler `Service` (built from `ReadHalf` and `WriteHalf`), the handler on a stale key `Stale`, and `Dispatch`.
- `Audit`: traces. A `Machine` pairs the table with a per-peer `Ledger` of the bytes received and echoed. `Step` and `Run` handle one event and a trace of events on live registrations. `Turn` and `RunPoll` handle one key and one poll result, stale keys included. `Loop` handles a sequence of polls. The invariants are `Shaped` (table shape) and `Faithful` (echo fidelity).
- `Convergence`: partial-write convergence, stated on runs of the server itself.
- `Findings`: the close-then-send gap (below).
- `Scenarios`: concrete runs from start-up.

The ledgers record the echo history. They are filled only from each step's observable outcome: bytes received, bytes sent, and whether the socket closed. The server's branches never read them.

The handler comes in two builds. `AsWritten` is the code as it stands. `Patched` takes no socket action once a connection is closed. It skips the write branch after its own read branch closed the socket, and it skips a stale key. Every lemma of `Audit`, `Convergence` and `Scenarios` is proved for both builds.

## Model

| member | source | states |
|---|---|---|
| Selector.Register | multiconn-server.py:27 | registering refuses an empty interest set and an already registered descriptor; otherwise it adds exactly one entry with the given interest and attachment and changes no other entry |
| Selector.Unregister | multiconn-server.py:42 | unregistering a descriptor not in the table fails with "not found"; otherwise exactly that entry is removed and all others are kept |
| Selector.UnregisterTwice | multiconn-server.py:42 | unregistering the same descriptor twice: the second call is refused with "not found" |
| Selector.RegisterThenUnregister | multiconn-server.py:27-42 | unregistering a descriptor just registered on a free slot gives back the original table |
| Connection.Transmit | multiconn-server.py:47-48 | one send: the bytes sent followed by the new `outb` are the old `outb`; as many bytes go out as the transport takes, up to `|outb|`; `addr` and `inb` are unchanged |
| Connection.Drain | multiconn-server.py:44-48 | repeated sends: everything sent, in order, followed by what is left is the original buffer; `addr` and `inb` are unchanged |
| Connection.DrainTakesSum | multiconn-server.py:47-48 | while the counts stay within the buffer, the sends together take exactly their sum from the front |
| Connection.DrainConverges | multiconn-server.py:47-48 | send counts summing to `|outb|` leave `outb` empty, and the bytes sent, concatenated, equal the original `outb` |
| Connection.DrainNotEarly | multiconn-server.py:44-48 | with every count positive, the buffer is non-empty after every proper prefix of the sends, so it empties after exactly that many write cycles |
| Server.Listen | multiconn-server.py:16 | the initial table holds only the listener, registered for read only (never write), with the `None` sentinel attachment |
| Server.Accept | multiconn-server.py:19-27 | accepting adds exactly one registration, for the accepted descriptor, with interest read and write and a record holding the accepted address and empty `inb` and `outb`; no other registration changes; an already registered descriptor raises |
| Server.Service | multiconn-server.py:29-48 | the handler crashes exactly when the code as written sends on the socket it just closed. The socket is closed iff the event is readable and the receive is empty, and then its registration is gone and nothing is sent. Otherwise interest, `addr` and `inb` are kept, and the bytes sent followed by the new `outb` equal the old `outb` followed by the bytes received. A writable event sends as much as the transport takes; a non-writable one sends nothing; no other registration changes |
| Server.Dispatch | multiconn-server.py:53-62 | events on the sentinel-attached key go to the acceptor and leave the listener's own entry alone; all others go to the client handler and never add a registration |
| Server.Stale | multiconn-server.py:29-48 | the handler on a key whose connection an earlier key of the same poll closed: as written a read raises, a write raises when bytes are pending, and nothing else happens; the patched build does nothing |
| Server.SplitReadWrite | multiconn-server.py:29-48 | a read key followed by a write key ends where one read-and-write call ends: the same table, bytes received and sent and closing flag when the read keeps the socket open, and the same crash or clean close when it closes it |
| Server.ReadBeforeWrite | multiconn-server.py:34-48 | within one event, read happens before write: on an idle connection, bytes received are sent back in the same event when the transport takes them all |
| Audit.StartValid | multiconn-server.py:16 | right after start-up the table has the listener shape and holds no clients |
| Audit.AcceptPreserves | multiconn-server.py:19-27 | accepting keeps the table shape and gives the new peer an empty ledger that satisfies echo fidelity |
| Audit.ServiceClosedPreserves | multiconn-server.py:40-43 | a handler call that closes removes both the peer's registration and its ledger, keeping the table shape and echo fidelity |
| Audit.ServiceOpenPreserves | multiconn-server.py:34-48 | a handler call that keeps the socket open grows the peer's ledger by the bytes received and the bytes sent, and echoed-then-pending still equals received |
| Audit.ServicePreserves | multiconn-server.py:29-48 | servicing a client keeps the table shape and keeps echoed-then-pending equal to received for that client |
| Audit.StepPreserves | multiconn-server.py:53-62 | dispatching any legal event preserves the table shape and echo fidelity |
| Audit.RunPreserves | multiconn-server.py:53-62 | every trace that does not crash preserves the table shape and echo fidelity |
| Audit.EchoFidelity | multiconn-server.py:29-48 | from start-up, every live peer's echoed bytes followed by its pending bytes are exactly the bytes it sent, so no byte is lost, duplicated or reordered and the echo is a prefix of the input |
| Audit.Isolation | multiconn-server.py:29-48 | a trace with no event on a descriptor leaves its registration, record and ledger unchanged |
| Audit.RunAppend | multiconn-server.py:50-53 | running two traces one after the other equals running their concatenation; a crash in the first ends the run |
| Audit.Crashes | multiconn-server.py:19-48 | on a trace whose every event meets a live registration, the only exception is the send on a closed socket, and only in the as-written build; the patched build never crashes. The duplicate-registration error of line 27 cannot occur, because `accept` never yields a descriptor still in the table. Keys made stale within a poll are covered by `Audit.PollCrashes` |
| Audit.BatchSeesPollTime | multiconn-server.py:51-53 | for any poll result, each key registered at poll time for the events it reports, handled in order: each key finds either the registration it had at poll time (same interest set, kind and address, the record possibly changed by earlier keys as the shared record is in the code) or its connection closed by an earlier key of the same poll, with the same address. A descriptor may be reported more than once, as kqueue does, and a close followed by an accept onto the same number is covered |
| Audit.TurnKeepsKeys | multiconn-server.py:53-62 | handling one key keeps every other poll-time key registered with its interest set, kind and address, or records it as closed with its address |
| Audit.AcceptKeepsKeys | multiconn-server.py:19-27 | an accept leaves every poll-time key that is still registered untouched |
| Audit.ServiceKeepsKeys | multiconn-server.py:29-48 | a client call keeps its own key's interest set and address, or closes it and records it as closed; other keys are untouched |
| Audit.PollIsRun | multiconn-server.py:53-62 | when no key of a poll is stale, in particular for any poll of a selector that reports each descriptor at most once, handling the poll is exactly running its keys as a trace |
| Audit.SinglePoll | multiconn-server.py:50-62 | a poll that reports one key is one dispatch of that key |
| Audit.TurnPreserves | multiconn-server.py:53-62 | handling one key, live or stale, keeps the table shape and echo fidelity |
| Audit.PollPreserves | multiconn-server.py:53-62 | handling a whole poll result, stale keys included, keeps the table shape and echo fidelity unless it crashes |
| Audit.PollCrashes | multiconn-server.py:29-62 | a poll ends in an exception only in the as-written build, and only by a send or a receive on a closed socket; the patched build survives every poll |
| Audit.LoopPreserves | multiconn-server.py:50-62 | the loop over any number of polls preserves the table shape and echo fidelity, on any selector; each poll is a result for the table at its turn, handled in order |
| Audit.LoopEchoFidelity | multiconn-server.py:29-62 | after any sequence of polls from start-up that does not crash, each live peer's echoed bytes followed by its pending bytes are exactly the bytes it sent |
| Audit.LoopCrashes | multiconn-server.py:29-62 | on any selector, the loop ends in an exception only in the as-written build, and only by a send or a receive on a closed socket; the patched server runs every sequence of polls to the end |
| Audit.LoopAppend | multiconn-server.py:50-62 | looping over two sequences of polls one after the other is looping over their concatenation; a crash in the first ends the loop |
| Convergence.WriteStep | multiconn-server.py:44-48 | one write-only event on a client never crashes; it performs one `Transmit` and books the bytes sent in that peer's ledger |
| Convergence.WritesDrain | multiconn-server.py:44-48 | write-only events on a client never crash and act as `Drain` on its record and its ledger |
| Convergence.PartialWritesConverge | multiconn-server.py:44-48 | from a faithful state, write-only events whose counts sum to the pending length empty `outb`, after which the peer has been sent back everything it sent |
| Findings.CloseWithPendingBytes | multiconn-server.py:40-48 | as written, a read-and-write event with an empty receive and pending bytes raises on the closed socket; patched, it closes and sends nothing |
| Findings.CloseThenSendReachable | multiconn-server.py:34-48 | a legal three-event trace from start-up (connect, two bytes with one echoed, close) crashes the as-written server |
| Findings.PatchedNeverCrashes | multiconn-server.py:40-48 | the patched handler never raises and agrees with the as-written one whenever that does not crash |
| Findings.PatchedSurvivesTrace | multiconn-server.py:40-48 | on the same trace the patched server survives with only the listener registered and no ledgers |
| Findings.ReachPending | multiconn-server.py:19-48 | two polls from start-up (connect; two bytes received with one echoed) leave one byte pending for the peer |
| Findings.HangUpPoll | multiconn-server.py:34-62 | a poll reporting the peer's hang-up and its write readiness as two keys: as written the stale write key sends on the closed socket and raises; patched, the poll only closes the connection |
| Findings.SplitKeysCrash | multiconn-server.py:34-62 | from start-up, three polls whose last reports one descriptor twice, as kqueue does, crash the as-written server by a send on the closed socket |
| Findings.PatchedSkipsStaleKey | multiconn-server.py:34-62 | on the same polls the patched server survives with only the listener registered and no ledgers |
| Scenarios.HelloWorldEchoed | multiconn-server.py:34-48 | a peer that sends `Hello World` gets exactly those 11 bytes back, in two partial sends, with nothing left pending |
| Scenarios.ConnectBoth | multiconn-server.py:19-27 | two successive accepts, one per listener event, register both peers with empty records and ledgers |
| Scenarios.SendBoth | multiconn-server.py:34-48 | after each of two peers sends one byte, each ledger holds only that peer's own byte as received and as echoed |
| Scenarios.TwoPeersIsolated | multiconn-server.py:53-62 | two peers sending `X` and `Y` each get back only their own byte |
| Scenarios.DescriptorReusedInOnePoll | multiconn-server.py:50-62 | within one poll, a peer's hang-up frees its descriptor and the listener's accept then reuses that number: the loop accepts the batch, and the new peer gets an empty record and ledger while the other peer is untouched |

## Left out

- Socket creation, `bind`, `listen` and `setblocking` (multiconn-server.py:11-15 and 22) are operating-system I/O. Descriptors are abstract ids.
- The blocking `sel.select(timeout=None)` and the endless `while True` (multiconn-server.py:50-51). `Audit.Loop` runs a finite sequence of poll batches given as input. Any finite prefix of the endless loop is covered.
- All `print` diagnostics are left out because they are informational only.
- Exceptions from `accept`, `recv` and `send` are left out: would-block, connection reset and transient accept failures. The code catches none of them, so any of them would end the loop. Three exceptions are modelled: the selector's refusal of a duplicate descriptor, and a send or a receive on a closed socket. `Accept` keeps the first, but `Audit.Crashes` and `Audit.LoopCrashes` show that no legal trace or sequence of polls reaches it. The receive on a closed socket needs a poll that reports read readiness again after a read key closed the connection, which no selector does; the model does not rule it out.
- The code does not treat would-block as "no data this cycle", does not tear down a connection on reset, does not drop a failed accept, and still writes after closing. The model keeps the last of these (the finding below); the others are exceptions it leaves out.
- Connection.Transmit: a count of 0 stands for a send that would block. The code raises `BlockingIOError` there and the loop ends, but the model lets the cycle pass with nothing sent. A `recv` that would block is not modelled: the received bytes are data or, when empty, the peer's close.
- Shutdown and signal handling are left out: the code has none.
- Peer addresses are a host and port pair. The IPv6 flow-info and scope-id fields are left out.
- The selector's `ValueError` for interest bits other than read and write is left out. Masks are two-bit vectors, so the only invalid interest set is the empty one.
- Python attachments are shared mutable objects. The model stores records as values and replaces them in the table. While a connection is open its record is reachable from its one registration and from that registration's keys in the current poll, which `Audit.BatchSeesPollTime` shows find it in the table. After a close, the record stays reachable only from the poll's stale keys, and the model keeps it, as it was at the close, in the poll's closed map.
- `outb` grows without bound, as in the code. There is no backpressure.
- The ledgers (`Audit.Ledger`) are history variables the code does not have. They exist only to state echo fidelity.
- `echo-server.py` and `echo-client.py` are single-connection scripts with no state machine.

## Findings

| source | as written | input that shows it | evidently intended | confidence | as-written member | corrected member |
|---|---|---|---|---|---|---|
| multiconn-server.py:40-48 | after an empty read unregisters and closes the socket, the write branch still runs and calls `send` on the closed socket whenever the mask has write and `outb` is non-empty. The resulting `OSError` is uncaught and ends the event loop for every client | a peer connects; it sends two bytes in a read-and-write event where the transport takes only one; it closes; the next read-and-write event receives nothing | no write action once the connection is closed | high; not executed | Findings.CloseThenSendReachable | Audit.LoopCrashes |
| multiconn-server.py:34-62 | with kqueue a readable and writable socket comes back as a read key and a write key of one poll, both looked up when the poll returned. When the read key's receive is empty, it unregisters and closes the socket. The loop still hands the write key to the handler, which sends the pending bytes on the closed socket and raises. A fix inside the handler alone does not prevent this | a peer connects; it sends two bytes in a read-and-write event where the transport takes only one; it hangs up, and the next poll reports its read and its write readiness as two keys | skip a key whose connection is already closed | high; not executed | Findings.SplitKeysCrash | Audit.LoopCrashes |

=== FILE: audit.dfy ===
/**
 * The event loop over traces, instrumented with a per-connection ledger of
 * the bytes received from and echoed to each peer. The ledger is fed only
 * by each step's observable `Outcome` and never steers the server, so the
 * server's table evolves exactly as `Server.Dispatch` says.
 */
module Audit {
  import opened Wrappers
  import opened Selector
  import opened Connection
  import opened Server

  /** Everything received from one live peer, and everything sent back to it. */
  datatype Ledger = Ledger(received: Bytes, echoed: Bytes)

  datatype Machine = Machine(table: Table, ledgers: map<Fd, Ledger>)

  /** The server right after start-up: only the listener is registered. */
  function Start(lfd: Fd): Machine {
    Machine(Listen(lfd), map[])
  }

  /** Book one outcome: a new peer starts empty, a closed one is dropped, a serviced one grows. */
  function Record(ledgers: map<Fd, Ledger>, o: Outcome): map<Fd, Ledger> {
    match o
    case Accepted(fd, _) => ledgers[fd := Ledger([], [])]
    case Serviced(w) =>
      if w.closed then ledgers - {w.fd}
      else
        var l := if w.fd in ledgers then ledgers[w.fd] else Ledger([], []);
        ledgers[w.fd := Ledger(l.received + w.received, l.echoed + w.sent)]
  }

  /**
   * An event the selector can report for the current table, with a
   * receive no longer than the size asked for. The descriptor `accept`
   * yields is not in the table: the table holds only open descriptors
   * (a client is unregistered before it is closed), and the kernel never
   * hands out a descriptor that is still open.
   */
  predicate Legal(t: Table, ev: Event) {
    && Reportable(t, ev.fd, ev.mask)
    && |ev.io.recvData| <= RECV_SIZE
    && (t[ev.fd].data.Listener? ==> ev.io.acceptFd !in t)
  }

  /** Dispatch one event and book its outcome. */
  function Step(build: Build, m: Machine, ev: Event): Result<Machine, Crash>
    requires Legal(m.table, ev)
  {
    match Dispatch(build, m.table, ev)
    case Err(e) => Err(e)
    case Ok((t', o)) => Ok(Machine(t', Record(m.ledgers, o)))
  }

  /** Every event of the trace is legal at the point it is handled (up to a crash). */
  predicate Admissible(build: Build, m: Machine, evs: seq<Event>)
    decreases |evs|
  {
    |evs| == 0 ||
    (Legal(m.table, evs[0]) &&
     (Step(build, m, evs[0]).Ok? ==> Admissible(build, Step(build, m, evs[0]).value, evs[1..])))
  }

  /** Handle events in order; the first uncaught exception ends the run. */
  function Run(build: Build, m: Machine, evs: seq<Event>): Result<Machine, Crash>
    requires Admissible(build, m, evs)
    decreases |evs|
  {
    if |evs| == 0 then Ok(m)
    else
      match Step(build, m, evs[0])
      case Err(e) => Err(e)
      case Ok(m') => Run(build, m', evs[1..])
  }

  /** A legal first event that does not crash, followed by an admissible rest. */
  lemma StepThenRun(build: Build, m: Machine, ev: Event, rest: seq<Event>)
    requires Legal(m.table, ev) && Step(build, m, ev).Ok?
    requires Admissible(build, Step(build, m, ev).value, rest)
    ensures Admissible(build, m, [ev] + rest)
    ensures Run(build, m, [ev] + rest) == Run(build, Step(build, m, ev).value, rest)
  {
    assert ([ev] + rest)[0] == ev;
    assert ([ev] + rest)[1..] == rest;
  }

  /**
   * The table's shape: the listener registered for read only with the
   * sentinel, every other registration a client registered for read and write.
   */
  predicate Shaped(t: Table, lfd: Fd) {
    && lfd in t && t[lfd] == Key(EVENT_READ, Listener)
    && forall fd :: fd in t && fd != lfd ==> t[fd].events == CLIENT_EVENTS && t[fd].data.Client?
  }

  /**
   * Echo fidelity: exactly the live clients have ledgers, and for each,
   * what was echoed followed by what is pending is what was received.
   */
  predicate Faithful(m: Machine) {
    && (forall fd :: fd in m.ledgers ==> fd in m.table && m.table[fd].data.Client?)
    && (forall fd :: fd in m.table && m.table[fd].data.Client? ==> fd in m.ledgers)
    && (forall fd :: fd in m.ledgers && fd in m.table && m.table[fd].data.Client? ==>
          m.ledgers[fd].echoed + m.table[fd].data.conn.outb == m.ledgers[fd].received)
  }

  /** The start-up state has the listener's shape and no clients. */
  lemma StartValid(lfd: Fd)
    ensures Shaped(Start(lfd).table, lfd)
    ensures Faithful(Start(lfd))
    ensures Start(lfd).table.Keys == {lfd}
  {
  }

  /** Accepting keeps the table's shape and gives the new peer an empty, faithful ledger. */
  lemma AcceptPreserves(m: Machine, io: Io, lfd: Fd)
    requires Shaped(m.table, lfd) && Faithful(m) && Accept(m.table, io).Ok?
    ensures Shaped(Accept(m.table, io).value.0, lfd)
    ensures Faithful(Machine(Accept(m.table, io).value.0, Record(m.ledgers, Accept(m.table, io).value.1)))
  {
    var (t', o) := Accept(m.table, io).value;
    var a := io.acceptFd;
    var m' := Machine(t', Record(m.ledgers, o));
    assert a !in m.ledgers;
    assert m'.ledgers == m.ledgers[a := Ledger([], [])];
    forall fd | fd in m'.ledgers && fd in t' && t'[fd].data.Client?
      ensures m'.ledgers[fd].echoed + t'[fd].data.conn.outb == m'.ledgers[fd].received
    {
      if fd == a {
        assert t'[fd].data.conn.outb == [];
      } else {
        assert t'[fd] == m.table[fd];
      }
    }
  }

  /** A client handler call that closes: the peer's registration and ledger both go. */
  lemma ServiceClosedPreserves(build: Build, m: Machine, fd: Fd, mask: Events, io: Io, lfd: Fd)
    requires fd in m.table && m.table[fd].data.Client? && |io.recvData| <= RECV_SIZE
    requires Shaped(m.table, lfd) && Faithful(m)
    requires Service(build, m.table, fd, mask, io).Ok? && Service(build, m.table, fd, mask, io).value.1.wire.closed
    ensures Shaped(Service(build, m.table, fd, mask, io).value.0, lfd)
    ensures Faithful(Machine(Service(build, m.table, fd, mask, io).value.0,
                             Record(m.ledgers, Service(build, m.table, fd, mask, io).value.1)))
  {
    var (t', o) := Service(build, m.table, fd, mask, io).value;
    assert t'.Keys == m.table.Keys - {fd};
    assert Record(m.ledgers, o) == m.ledgers - {fd};
  }

  /**
   * A client handler call that keeps the socket open: the ledger grows by
   * the bytes received and the bytes sent, and echoed-then-pending still
   * equals received.
   */
  lemma ServiceOpenPreserves(build: Build, m: Machine, fd: Fd, mask: Events, io: Io, lfd: Fd)
    requires fd in m.table && m.table[fd].data.Client? && |io.recvData| <= RECV_SIZE
    requires Shaped(m.table, lfd) && Faithful(m)
    requires Service(build, m.table, fd, mask, io).Ok? && !Service(build, m.table, fd, mask, io).value.1.wire.closed
    ensures Shaped(Service(build, m.table, fd, mask, io).value.0, lfd)
    ensures Faithful(Machine(Service(build, m.table, fd, mask, io).value.0,
                             Record(m.ledgers, Service(build, m.table, fd, mask, io).value.1)))
  {
    var t := m.table;
    var (t', o) := Service(build, t, fd, mask, io).value;
    var w := o.wire;
    var l := m.ledgers[fd];
    var c := t[fd].data.conn;
    var c' := t'[fd].data.conn;
    assert l.echoed + c.outb == l.received;
    assert w.sent + c'.outb == c.outb + w.received;
    SplitEcho(l.echoed, c.outb, w.sent, c'.outb, w.received);
    assert Record(m.ledgers, o) == m.ledgers[fd := Ledger(l.received + w.received, l.echoed + w.sent)];
  }

  /** The sequence identity behind the open case: (e + s) + o' == (e + o) + r whenever s + o' == o + r. */
  lemma SplitEcho(e: Bytes, o: Bytes, s: Bytes, o': Bytes, r: Bytes)
    requires s + o' == o + r
    ensures (e + s) + o' == (e + o) + r
  {
    calc {
      (e + s) + o';
      e + (s + o');
      e + (o + r);
      (e + o) + r;
    }
  }

  /** Servicing a client keeps the table's shape and extends its ledger faithfully. */
  lemma ServicePreserves(build: Build, m: Machine, fd: Fd, mask: Events, io: Io, lfd: Fd)
    requires fd in m.table && m.table[fd].data.Client? && |io.recvData| <= RECV_SIZE
    requires Shaped(m.table, lfd) && Faithful(m) && Service(build, m.table, fd, mask, io).Ok?
    ensures Shaped(Service(build, m.table, fd, mask, io).value.0, lfd)
    ensures Faithful(Machine(Service(build, m.table, fd, mask, io).value.0,
                             Record(m.ledgers, Service(build, m.table, fd, mask, io).value.1)))
  {
    if Service(build, m.table, fd, mask, io).value.1.wire.closed {
      ServiceClosedPreserves(build, m, fd, mask, io, lfd);
    } else {
      ServiceOpenPreserves(build, m, fd, mask, io, lfd);
    }
  }

  /** One step keeps the table's shape and echo fidelity. */
  lemma StepPreserves(build: Build, m: Machine, ev: Event, lfd: Fd)
    requires Legal(m.table, ev) && Shaped(m.table, lfd) && Faithful(m)
    ensures Step(build, m, ev).Ok? ==> Shaped(Step(build, m, ev).value.table, lfd)
    ensures Step(build, m, ev).Ok? ==> Faithful(Step(build, m, ev).value)
  {
    if Step(build, m, ev).Ok? {
      if m.table[ev.fd].data.Listener? {
        AcceptPreserves(m, ev.io, lfd);
      } else {
        ServicePreserves(build, m, ev.fd, ev.mask, ev.io, lfd);
      }
    }
  }

  /** Shape and echo fidelity hold after every prefix of every trace that does not crash. */
  lemma {:induction false} RunPreserves(build: Build, m: Machine, evs: seq<Event>, lfd: Fd)
    requires Admissible(build, m, evs) && Shaped(m.table, lfd) && Faithful(m)
    ensures Run(build, m, evs).Ok? ==> Shaped(Run(build, m, evs).value.table, lfd)
    ensures Run(build, m, evs).Ok? ==> Faithful(Run(build, m, evs).value)
    decreases |evs|
  {
    if |evs| > 0 {
      StepPreserves(build, m, evs[0], lfd);
      var s := Step(build, m, evs[0]);
      if s.Ok? {
        RunPreserves(build, s.value, evs[1..], lfd);
      }
    }
  }

  /**
   * Echo fidelity from start-up: along any trace, each live peer's echoed
   * bytes followed by its pending bytes are exactly what it sent, so
   * nothing is lost, duplicated or reordered, and what was echoed is a
   * prefix of what was received.
   */
  lemma EchoFidelity(build: Build, lfd: Fd, evs: seq<Event>, fd: Fd)
    requires Admissible(build, Start(lfd), evs)
    requires Run(build, Start(lfd), evs).Ok?
    requires fd in Run(build, Start(lfd), evs).value.table
    requires fd != lfd
    ensures fd in Run(build, Start(lfd), evs).value.ledgers
    ensures Run(build, Start(lfd), evs).value.table[fd].data.Client?
    ensures var m := Run(build, Start(lfd), evs).value;
      m.ledgers[fd].echoed + m.table[fd].data.conn.outb == m.ledgers[fd].received
    ensures var m := Run(build, Start(lfd), evs).value;
      m.ledgers[fd].echoed <= m.ledgers[fd].received
  {
    StartValid(lfd);
    RunPreserves(build, Start(lfd), evs, lfd);
  }

  /**
   * Connections are isolated: a trace with no event on `x` leaves `x`'s
   * registration, record and ledger exactly as they were, whatever it does
   * to other peers.
   */
  lemma {:induction false} Isolation(build: Build, m: Machine, evs: seq<Event>, x: Fd)
    requires Admissible(build, m, evs)
    requires x in m.table
    requires forall i :: 0 <= i < |evs| ==> evs[i].fd != x
    ensures Run(build, m, evs).Ok? ==> x in Run(build, m, evs).value.table
    ensures Run(build, m, evs).Ok? ==> Run(build, m, evs).value.table[x] == m.table[x]
    ensures Run(build, m, evs).Ok? && x in m.ledgers ==>
      x in Run(build, m, evs).value.ledgers && Run(build, m, evs).value.ledgers[x] == m.ledgers[x]
    decreases |evs|
  {
    if |evs| > 0 {
      var s := Step(build, m, evs[0]);
      if s.Ok? {
        var (t', o) := Dispatch(build, m.table, evs[0]).value;
        assert x in t' && t'[x] == m.table[x];
        assert o.Accepted? ==> o.fd !in m.table;
        Isolation(build, s.value, evs[1..], x);
      }
    }
  }

  /**
   * Running two traces one after the other is running their
   * concatenation: a crash in the first ends the whole run.
   */
  lemma {:induction false} RunAppend(build: Build, m: Machine, a: seq<Event>, b: seq<Event>)
    requires Admissible(build, m, a)
    requires Run(build, m, a).Ok? ==> Admissible(build, Run(build, m, a).value, b)
    ensures Admissible(build, m, a + b)
    ensures Run(build, m, a + b) ==
      if Run(build, m, a).Ok? then Run(build, Run(build, m, a).value, b) else Run(build, m, a)
    decreases |a|
  {
    if |a| > 0 {
      assert (a + b)[0] == a[0];
      assert (a + b)[1..] == a[1..] + b;
      var s := Step(build, m, a[0]);
      if s.Ok? {
        RunAppend(build, s.value, a[1..], b);
      }
    } else {
      assert a + b == b;
    }
  }

  /**
   * The only exception a legal trace can raise is the send on a closed
   * socket, and only in the build as written: the patched server survives
   * every legal trace.
   */
  lemma {:induction false} Crashes(build: Build, m: Machine, evs: seq<Event>)
    requires Admissible(build, m, evs)
    ensures Run(build, m, evs).Err? ==> build == AsWritten && Run(build, m, evs).error.SendOnClosedSocket?
    ensures build == Patched ==> Run(build, m, evs).Ok?
    decreases |evs|
  {
    if |evs| > 0 {
      var s := Step(build, m, evs[0]);
      if s.Ok? {
        Crashes(build, s.value, evs[1..]);
      }
    }
  }

  /**
   * One poll result may report a descriptor more than once: kqueue, the
   * default selector on macOS and BSD, returns a socket that is readable
   * and writable as two keys. epoll, poll and select report each
   * descriptor at most once per poll.
   */
  predicate DistinctFds(batch: seq<Event>) {
    forall i, j :: 0 <= i < j < |batch| ==> batch[i].fd != batch[j].fd
  }

  /**
   * A poll result: every key registered at poll time for the events it
   * reports, every read bounded by `RECV_SIZE`. Whether an accepted
   * descriptor is fresh depends on what earlier keys of the same poll
   * closed, so that is left to `PollAdmissible`.
   */
  predicate SelectBatch(t: Table, batch: seq<Event>) {
    forall i :: 0 <= i < |batch| ==>
      Reportable(t, batch[i].fd, batch[i].mask) && |batch[i].io.recvData| <= RECV_SIZE
  }

  /**
   * Connections closed earlier in the current poll, each with its record
   * as it was at the close. The poll's remaining keys for them are stale,
   * and the loop still hands them to the handler.
   */
  type Closed = map<Fd, Conn>

  /** A key of the current poll can be handled: it is stale, or legal for the live table. */
  predicate TurnLegal(m: Machine, gone: Closed, ev: Event) {
    ev.fd in gone || Legal(m.table, ev)
  }

  /**
   * Handle one key of a poll. A stale key runs the handler on the closed
   * socket and changes nothing else; a live key is a `Step`, and a step
   * that closes its connection marks it gone for the rest of the poll.
   */
  function Turn(build: Build, m: Machine, gone: Closed, ev: Event): Result<(Machine, Closed), Crash>
    requires TurnLegal(m, gone, ev)
  {
    if ev.fd in gone then
      match Stale(build, ev.fd, ev.mask, gone[ev.fd])
      case Err(e) => Err(e)
      case Ok(_) => Ok((m, gone))
    else
      match Step(build, m, ev)
      case Err(e) => Err(e)
      case Ok(m') =>
        if m.table[ev.fd].data.Client? && ev.fd !in m'.table
        then Ok((m', gone[ev.fd := m.table[ev.fd].data.conn]))
        else Ok((m', gone))
  }

  /** Every key of the poll can be handled at its turn (up to a crash). */
  predicate PollAdmissible(build: Build, m: Machine, gone: Closed, evs: seq<Event>)
    decreases |evs|
  {
    |evs| == 0 ||
    (TurnLegal(m, gone, evs[0]) &&
     (Turn(build, m, gone, evs[0]).Ok? ==>
        PollAdmissible(build, Turn(build, m, gone, evs[0]).value.0, Turn(build, m, gone, evs[0]).value.1, evs[1..])))
  }

  /** The `for key, mask in events` loop over one poll result. */
  function RunPoll(build: Build, m: Machine, gone: Closed, evs: seq<Event>): Result<Machine, Crash>
    requires PollAdmissible(build, m, gone, evs)
    decreases |evs|
  {
    if |evs| == 0 then Ok(m)
    else
      match Turn(build, m, gone, evs[0])
      case Err(e) => Err(e)
      case Ok((m', gone')) => RunPoll(build, m', gone', evs[1..])
  }

  /**
   * When no key of the poll is stale, handling the poll is running its
   * keys as a trace; in particular every poll of a selector that reports
   * each descriptor at most once is a `Run`.
   */
  lemma {:induction false} PollIsRun(build: Build, m: Machine, gone: Closed, evs: seq<Event>)
    requires DistinctFds(evs) && Admissible(build, m, evs)
    requires forall i :: 0 <= i < |evs| ==> evs[i].fd !in gone
    ensures PollAdmissible(build, m, gone, evs)
    ensures RunPoll(build, m, gone, evs) == Run(build, m, evs)
    decreases |evs|
  {
    if |evs| > 0 {
      var ev := evs[0];
      var s := Step(build, m, ev);
      if s.Ok? {
        var gone' := Turn(build, m, gone, ev).value.1;
        var rest := evs[1..];
        forall i | 0 <= i < |rest|
          ensures rest[i].fd !in gone'
        {
          assert rest[i] == evs[i + 1];
        }
        assert DistinctFds(rest) by {
          forall i, j | 0 <= i < j < |rest|
            ensures rest[i].fd != rest[j].fd
          {
            assert rest[i] == evs[i + 1] && rest[j] == evs[j + 1];
          }
        }
        PollIsRun(build, s.value, gone', rest);
      }
    }
  }

  /** A poll that reports a single key is one `Step`. */
  lemma SinglePoll(build: Build, m: Machine, ev: Event)
    requires Legal(m.table, ev)
    ensures PollAdmissible(build, m, map[], [ev])
    ensures RunPoll(build, m, map[], [ev]) == Step(build, m, ev)
  {
    assert [ev][1..] == [];
    PollIsRun(build, m, map[], [ev]);
  }

  /** Two keys that agree on what the selector knows: interest set, kind and peer address. */
  predicate SameKey(k: Key<Attachment>, k0: Key<Attachment>) {
    && k.events == k0.events
    && k.data.Listener? == k0.data.Listener?
    && (k.data.Client? && k0.data.Client? ==> k.data.conn.addr == k0.data.conn.addr)
  }

  /**
   * Every key of the poll-time table `t0` is still registered with the
   * same interest set, kind and address, or it is gone with its address.
   */
  predicate KeysHeld(m: Machine, gone: Closed, t0: Table) {
    && (forall fd :: fd in t0 && fd !in gone ==> fd in m.table && SameKey(m.table[fd], t0[fd]))
    && (forall fd :: fd in gone ==> fd in t0 && t0[fd].data.Client? && gone[fd].addr == t0[fd].data.conn.addr)
  }

  /** Handling one key keeps every other poll-time key where the selector left it. */
  lemma TurnKeepsKeys(build: Build, m: Machine, gone: Closed, ev: Event, t0: Table)
    requires KeysHeld(m, gone, t0) && ev.fd in t0 && TurnLegal(m, gone, ev)
    requires Turn(build, m, gone, ev).Ok?
    ensures KeysHeld(Turn(build, m, gone, ev).value.0, Turn(build, m, gone, ev).value.1, t0)
  {
    if ev.fd !in gone {
      if m.table[ev.fd].data.Listener? {
        AcceptKeepsKeys(m, gone, ev.io, t0);
      } else {
        ServiceKeepsKeys(build, m, gone, ev, t0);
      }
    }
  }

  /** An accept adds a descriptor that no held poll-time key uses, and touches nothing else. */
  lemma AcceptKeepsKeys(m: Machine, gone: Closed, io: Io, t0: Table)
    requires KeysHeld(m, gone, t0) && Accept(m.table, io).Ok?
    ensures KeysHeld(Machine(Accept(m.table, io).value.0, m.ledgers), gone, t0)
  {
    var t' := Accept(m.table, io).value.0;
    assert forall f :: f in m.table ==> f in t' && t'[f] == m.table[f];
  }

  /** A client call keeps its own key's interest set and address, or closes it and marks it gone. */
  lemma ServiceKeepsKeys(build: Build, m: Machine, gone: Closed, ev: Event, t0: Table)
    requires KeysHeld(m, gone, t0) && ev.fd in t0 && ev.fd !in gone && Legal(m.table, ev)
    requires m.table[ev.fd].data.Client? && Step(build, m, ev).Ok?
    ensures var t' := Step(build, m, ev).value.table;
      KeysHeld(Step(build, m, ev).value,
               if ev.fd !in t' then gone[ev.fd := m.table[ev.fd].data.conn] else gone, t0)
  {
    var t := m.table;
    var fd := ev.fd;
    var t' := Service(build, t, fd, ev.mask, ev.io).value.0;
    assert t' == Step(build, m, ev).value.table;
    var gone' := if fd !in t' then gone[fd := t[fd].data.conn] else gone;
    forall f | f in t0 && f !in gone'
      ensures f in t' && SameKey(t'[f], t0[f])
    {
      if f != fd {
        assert f in t && t'[f] == t[f];
      }
    }
    forall f | f in gone'
      ensures f in t0 && t0[f].data.Client? && gone'[f].addr == t0[f].data.conn.addr
    {
      if f == fd {
        assert SameKey(t[fd], t0[fd]);
      }
    }
  }

  /**
   * The handler reads the key the selector returned at poll time, while
   * the model reads the table when the key's turn comes. This says the two
   * agree: each key finds its descriptor either gone, closed by an earlier
   * key of the same poll with the address it had, or registered with the
   * interest set, kind and address it had at poll time. The record itself
   * may have changed, as the one shared record does in the code.
   */
  predicate SeesPollTime(build: Build, m: Machine, gone: Closed, evs: seq<Event>, t0: Table)
    decreases |evs|
  {
    |evs| == 0 ||
    (evs[0].fd in t0 &&
     (evs[0].fd in gone || (evs[0].fd in m.table && SameKey(m.table[evs[0].fd], t0[evs[0].fd]))) &&
     TurnLegal(m, gone, evs[0]) &&
     (Turn(build, m, gone, evs[0]).Ok? ==>
        SeesPollTime(build, Turn(build, m, gone, evs[0]).value.0, Turn(build, m, gone, evs[0]).value.1, evs[1..], t0)))
  }

  /** The poll induction behind `BatchSeesPollTime`. */
  lemma {:induction false} BatchFrom(build: Build, m: Machine, gone: Closed, batch: seq<Event>, t0: Table)
    requires SelectBatch(t0, batch) && PollAdmissible(build, m, gone, batch) && KeysHeld(m, gone, t0)
    ensures SeesPollTime(build, m, gone, batch, t0)
    decreases |batch|
  {
    if |batch| > 0 {
      var ev := batch[0];
      assert ev.fd in t0;
      var s := Turn(build, m, gone, ev);
      if s.Ok? {
        TurnKeepsKeys(build, m, gone, ev, t0);
        var rest := batch[1..];
        assert SelectBatch(t0, rest) by {
          forall i | 0 <= i < |rest|
            ensures Reportable(t0, rest[i].fd, rest[i].mask) && |rest[i].io.recvData| <= RECV_SIZE
          {
            assert rest[i] == batch[i + 1];
          }
        }
        BatchFrom(build, s.value.0, s.value.1, rest, t0);
      }
    }
  }

  /**
   * Dispatching a poll result in order is faithful to the keys the
   * selector returned, for any selector: no key meets a registration that
   * an earlier key of the same poll replaced, and a key whose connection
   * an earlier key closed is recognised as stale.
   */
  lemma BatchSeesPollTime(build: Build, m: Machine, batch: seq<Event>)
    requires SelectBatch(m.table, batch) && PollAdmissible(build, m, map[], batch)
    ensures SeesPollTime(build, m, map[], batch, m.table)
  {
    BatchFrom(build, m, map[], batch, m.table);
  }

  /** One key keeps the table's shape and echo fidelity. */
  lemma TurnPreserves(build: Build, m: Machine, gone: Closed, ev: Event, lfd: Fd)
    requires TurnLegal(m, gone, ev) && Shaped(m.table, lfd) && Faithful(m)
    ensures Turn(build, m, gone, ev).Ok? ==> Shaped(Turn(build, m, gone, ev).value.0.table, lfd)
    ensures Turn(build, m, gone, ev).Ok? ==> Faithful(Turn(build, m, gone, ev).value.0)
  {
    if ev.fd !in gone {
      StepPreserves(build, m, ev, lfd);
    }
  }

  /** Shape and echo fidelity hold after every poll that does not crash, stale keys included. */
  lemma {:induction false} PollPreserves(build: Build, m: Machine, gone: Closed, evs: seq<Event>, lfd: Fd)
    requires PollAdmissible(build, m, gone, evs) && Shaped(m.table, lfd) && Faithful(m)
    ensures RunPoll(build, m, gone, evs).Ok? ==> Shaped(RunPoll(build, m, gone, evs).value.table, lfd)
    ensures RunPoll(build, m, gone, evs).Ok? ==> Faithful(RunPoll(build, m, gone, evs).value)
    decreases |evs|
  {
    if |evs| > 0 {
      TurnPreserves(build, m, gone, evs[0], lfd);
      var s := Turn(build, m, gone, evs[0]);
      if s.Ok? {
        PollPreserves(build, s.value.0, s.value.1, evs[1..], lfd);
      }
    }
  }

  /**
   * What can end a poll: as written, a send on a closed socket, or a
   * receive on one when a stale key reports read readiness; the patched
   * build survives every poll.
   */
  lemma {:induction false} PollCrashes(build: Build, m: Machine, gone: Closed, evs: seq<Event>)
    requires PollAdmissible(build, m, gone, evs)
    ensures RunPoll(build, m, gone, evs).Err? ==>
      && build == AsWritten
      && (RunPoll(build, m, gone, evs).error.SendOnClosedSocket? || RunPoll(build, m, gone, evs).error.RecvOnClosedSocket?)
    ensures build == Patched ==> RunPoll(build, m, gone, evs).Ok?
    decreases |evs|
  {
    if |evs| > 0 {
      var ev := evs[0];
      if ev.fd !in gone {
        Crashes(build, m, [ev]);
        assert [ev][1..] == [];
        assert Run(build, m, [ev]) == Step(build, m, ev);
      }
      var s := Turn(build, m, gone, ev);
      if s.Ok? {
        PollCrashes(build, s.value.0, s.value.1, evs[1..]);
      }
    }
  }

  /**
   * The `while True` loop: one poll result after another, each for the
   * table at its turn and handled in order, starting with no stale keys.
   */
  predicate Polls(build: Build, m: Machine, batches: seq<seq<Event>>)
    decreases |batches|
  {
    |batches| == 0 ||
    (SelectBatch(m.table, batches[0]) && PollAdmissible(build, m, map[], batches[0]) &&
     (RunPoll(build, m, map[], batches[0]).Ok? ==> Polls(build, RunPoll(build, m, map[], batches[0]).value, batches[1..])))
  }

  function Loop(build: Build, m: Machine, batches: seq<seq<Event>>): Result<Machine, Crash>
    requires Polls(build, m, batches)
    decreases |batches|
  {
    if |batches| == 0 then Ok(m)
    else
      match RunPoll(build, m, map[], batches[0])
      case Err(e) => Err(e)
      case Ok(m') => Loop(build, m', batches[1..])
  }

  /** The loop keeps the table's shape and echo fidelity across any number of polls. */
  lemma {:induction false} LoopPreserves(build: Build, m: Machine, batches: seq<seq<Event>>, lfd: Fd)
    requires Polls(build, m, batches) && Shaped(m.table, lfd) && Faithful(m)
    ensures Loop(build, m, batches).Ok? ==> Shaped(Loop(build, m, batches).value.table, lfd)
    ensures Loop(build, m, batches).Ok? ==> Faithful(Loop(build, m, batches).value)
    decreases |batches|
  {
    if |batches| > 0 {
      PollPreserves(build, m, map[], batches[0], lfd);
      var r := RunPoll(build, m, map[], batches[0]);
      if r.Ok? {
        LoopPreserves(build, r.value, batches[1..], lfd);
      }
    }
  }

  /**
   * Echo fidelity of the server as it runs, on any selector: after any
   * sequence of polls from start-up that does not crash, each live peer's
   * echoed bytes followed by its pending bytes are exactly what it sent.
   */
  lemma LoopEchoFidelity(build: Build, lfd: Fd, batches: seq<seq<Event>>, fd: Fd)
    requires Polls(build, Start(lfd), batches)
    requires Loop(build, Start(lfd), batches).Ok?
    requires fd in Loop(build, Start(lfd), batches).value.table
    requires fd != lfd
    ensures fd in Loop(build, Start(lfd), batches).value.ledgers
    ensures Loop(build, Start(lfd), batches).value.table[fd].data.Client?
    ensures var m := Loop(build, Start(lfd), batches).value;
      m.ledgers[fd].echoed + m.table[fd].data.conn.outb == m.ledgers[fd].received
  {
    StartValid(lfd);
    LoopPreserves(build, Start(lfd), batches, lfd);
  }

  /**
   * The loop's exceptions, on any selector: as written only a send or a
   * receive on a closed socket ends it; the patched server runs every
   * sequence of polls to the end.
   */
  lemma {:induction false} LoopCrashes(build: Build, m: Machine, batches: seq<seq<Event>>)
    requires Polls(build, m, batches)
    ensures Loop(build, m, batches).Err? ==>
      && build == AsWritten
      && (Loop(build, m, batches).error.SendOnClosedSocket? || Loop(build, m, batches).error.RecvOnClosedSocket?)
    ensures build == Patched ==> Loop(build, m, batches).Ok?
    decreases |batches|
  {
    if |batches| > 0 {
      PollCrashes(build, m, map[], batches[0]);
      var r := RunPoll(build, m, map[], batches[0]);
      if r.Ok? {
        LoopCrashes(build, r.value, batches[1..]);
      }
    }
  }

  /**
   * Looping over two sequences of polls one after the other is looping
   * over their concatenation: a crash in the first ends the whole loop.
   */
  lemma {:induction false} LoopAppend(build: Build, m: Machine, a: seq<seq<Event>>, b: seq<seq<Event>>)
    requires Polls(build, m, a)
    requires Loop(build, m, a).Ok? ==> Polls(build, Loop(build, m, a).value, b)
    ensures Polls(build, m, a + b)
    ensures Loop(build, m, a + b) ==
      if Loop(build, m, a).Ok? then Loop(build, Loop(build, m, a).value, b) else Loop(build, m, a)
    decreases |a|
  {
    if |a| > 0 {
      assert (a + b)[0] == a[0];
      assert (a + b)[1..] == a[1..] + b;
      var r := RunPoll(build, m, map[], a[0]);
      if r.Ok? {
        LoopAppend(build, r.value, a[1..], b);
      }
    } else {
      assert a + b == b;
    }
  }
}

=== FILE: connection.dfy ===
/**
 * The per-connection record the server attaches to each client
 * registration (`addr`, `inb`, `outb`), and the buffer arithmetic of one
 * non-blocking send.
 */
module Connection {

  type Byte = bv8
  type Bytes = seq<Byte>

  /** The size passed to every receive call. */
  const RECV_SIZE: nat := 1024

  /** The peer's endpoint as `accept` reports it. */
  datatype Addr = Addr(host: string, port: nat)

  /**
   * One client's state. `inb` is carried but never read or written by the
   * echo logic; `outb` holds the bytes waiting to be echoed.
   */
  datatype Conn = Conn(addr: Addr, inb: Bytes, outb: Bytes)

  function Min(a: nat, b: nat): nat {
    if a <= b then a else b
  }

  /** Sum of a list of send counts. */
  function Sum(ks: seq<nat>): nat {
    if |ks| == 0 then 0 else ks[0] + Sum(ks[1..])
  }

  /**
   * One `send` of the whole pending buffer when the transport takes at
   * most `limit` bytes: the bytes that went out are the front of `outb`,
   * the new `outb` is what is left, and nothing else of the record changes.
   */
  function Transmit(c: Conn, limit: nat): (r: (Conn, Bytes))
    ensures r.1 + r.0.outb == c.outb
    ensures |r.1| == Min(limit, |c.outb|)
    ensures r.0.addr == c.addr && r.0.inb == c.inb
  {
    var sent := Min(limit, |c.outb|);
    (c.(outb := c.outb[sent..]), c.outb[..sent])
  }

  /**
   * Successive write-ready cycles with no read in between, the i-th send
   * taking at most `limits[i]` bytes. Returns the final record and the
   * bytes sent, in the order they went out.
   */
  function Drain(c: Conn, limits: seq<nat>): (r: (Conn, Bytes))
    ensures r.1 + r.0.outb == c.outb
    ensures r.0.addr == c.addr && r.0.inb == c.inb
    decreases |limits|
  {
    if |limits| == 0 then (c, [])
    else
      var (c1, s1) := Transmit(c, limits[0]);
      var (c2, s2) := Drain(c1, limits[1..]);
      assert s1 + s2 + c2.outb == s1 + (s2 + c2.outb);
      (c2, s1 + s2)
  }

  /** The first send, then the rest. */
  lemma DrainCons(c: Conn, limits: seq<nat>)
    requires |limits| > 0
    ensures Drain(c, limits).0 == Drain(Transmit(c, limits[0]).0, limits[1..]).0
    ensures Drain(c, limits).1 == Transmit(c, limits[0]).1 + Drain(Transmit(c, limits[0]).0, limits[1..]).1
  {
  }

  /**
   * While the counts do not exceed the buffer, the sends together take
   * exactly `Sum(limits)` bytes from the front of the buffer.
   */
  lemma {:induction false} DrainTakesSum(c: Conn, limits: seq<nat>)
    requires Sum(limits) <= |c.outb|
    ensures Drain(c, limits).1 == c.outb[..Sum(limits)]
    ensures Drain(c, limits).0.outb == c.outb[Sum(limits)..]
    decreases |limits|
  {
    if |limits| > 0 {
      var (c1, s1) := Transmit(c, limits[0]);
      assert |s1| == limits[0];
      assert c1.outb == c.outb[limits[0]..];
      DrainTakesSum(c1, limits[1..]);
      var (c2, s2) := Drain(c1, limits[1..]);
      assert s2 == c1.outb[..Sum(limits[1..])];
      assert c2.outb == c.outb[Sum(limits)..];
      assert s1 + s2 == c.outb[..Sum(limits)];
    }
  }

  /**
   * Partial-write convergence: sends whose counts add up to the buffer's
   * length leave it empty, and the bytes sent, concatenated, are the
   * original buffer.
   */
  lemma DrainConverges(c: Conn, limits: seq<nat>)
    requires Sum(limits) == |c.outb|
    ensures Drain(c, limits).0.outb == []
    ensures Drain(c, limits).1 == c.outb
  {
    DrainTakesSum(c, limits);
  }

  lemma {:induction false} SumPrefix(ks: seq<nat>, i: nat)
    requires i <= |ks|
    ensures Sum(ks) == Sum(ks[..i]) + Sum(ks[i..])
    decreases i
  {
    if i > 0 {
      SumPrefix(ks[1..], i - 1);
      assert ks[1..][..i - 1] == ks[..i][1..];
      assert ks[1..][i - 1..] == ks[i..];
    }
  }

  /**
   * With every count positive, the buffer is still non-empty after any
   * proper prefix of the cycles: it empties after exactly `|limits|` of them.
   */
  lemma DrainNotEarly(c: Conn, limits: seq<nat>, i: nat)
    requires Sum(limits) == |c.outb|
    requires forall j :: 0 <= j < |limits| ==> limits[j] > 0
    requires i < |limits|
    ensures Drain(c, limits[..i]).0.outb != []
  {
    SumPrefix(limits, i);
    assert limits[i..][0] == limits[i] > 0;
    DrainTakesSum(c, limits[..i]);
  }
}

=== FILE: convergence.dfy ===
/**
 * Partial-write convergence stated on the server itself: a run of
 * write-only events on one client behaves as `Connection.Drain`.
 */
module Convergence {
  import opened Wrappers
  import opened Selector
  import opened Connection
  import opened Server
  import opened Audit

  /** A write-only ready event on `fd` whose send takes at most `limit` bytes. */
  function WriteEvent(fd: Fd, limit: nat): Event {
    Event(fd, EVENT_WRITE, Io(0, NO_ADDR, [], limit))
  }

  /** Write-ready events on `fd`, the i-th send taking at most `limits[i]` bytes. */
  function WriteEvents(fd: Fd, limits: seq<nat>): (evs: seq<Event>)
    ensures |evs| == |limits|
    decreases |limits|
  {
    if |limits| == 0 then []
    else [WriteEvent(fd, limits[0])] + WriteEvents(fd, limits[1..])
  }

  /** One write-ready event on a client is one `Transmit`, booked in its ledger. */
  lemma WriteStep(build: Build, m: Machine, fd: Fd, limit: nat)
    requires fd in m.table && m.table[fd].data.Client? && Writable(m.table[fd].events)
    requires fd in m.ledgers
    ensures Legal(m.table, WriteEvent(fd, limit))
    ensures Step(build, m, WriteEvent(fd, limit)).Ok?
    ensures var m' := Step(build, m, WriteEvent(fd, limit)).value;
      && fd in m'.table && fd in m'.ledgers
      && m'.table[fd] == m.table[fd].(data := Client(Transmit(m.table[fd].data.conn, limit).0))
      && m'.ledgers[fd] == m.ledgers[fd].(echoed := m.ledgers[fd].echoed + Transmit(m.table[fd].data.conn, limit).1)
  {
    var io := WriteEvent(fd, limit).io;
    var c := m.table[fd].data.conn;
    assert EVENT_WRITE & m.table[fd].events == EVENT_WRITE;
    assert !Readable(EVENT_WRITE) && Writable(EVENT_WRITE);
    var a := ReadHalf(m.table, fd, EVENT_WRITE, io).value;
    assert a == AfterRead(m.table, c, [], false);
    if |c.outb| == 0 {
      assert Transmit(c, limit) == (c, []);
    }
  }

  /**
   * `m'` is `m` after write cycles with the given limits on `fd`: the record
   * is what `Drain` leaves and the ledger has gained what `Drain` sends.
   */
  predicate DrainedTo(m: Machine, m': Machine, fd: Fd, limits: seq<nat>)
    requires fd in m.table && m.table[fd].data.Client? && fd in m.ledgers
  {
    && fd in m'.table && fd in m'.ledgers
    && m'.table[fd] == m.table[fd].(data := Client(Drain(m.table[fd].data.conn, limits).0))
    && m'.ledgers[fd] == m.ledgers[fd].(echoed := m.ledgers[fd].echoed + Drain(m.table[fd].data.conn, limits).1)
  }

  /** One cycle followed by the rest is all the cycles. */
  lemma DrainedCons(m: Machine, m1: Machine, m2: Machine, fd: Fd, limits: seq<nat>)
    requires |limits| > 0
    requires fd in m.table && m.table[fd].data.Client? && fd in m.ledgers
    requires fd in m1.table && fd in m1.ledgers
    requires m1.table[fd] == m.table[fd].(data := Client(Transmit(m.table[fd].data.conn, limits[0]).0))
    requires m1.ledgers[fd] == m.ledgers[fd].(echoed := m.ledgers[fd].echoed + Transmit(m.table[fd].data.conn, limits[0]).1)
    requires DrainedTo(m1, m2, fd, limits[1..])
    ensures DrainedTo(m, m2, fd, limits)
  {
    var c := m.table[fd].data.conn;
    DrainCons(c, limits);
    var (c1, s1) := Transmit(c, limits[0]);
    var s2 := Drain(c1, limits[1..]).1;
    assert m.ledgers[fd].echoed + s1 + s2 == m.ledgers[fd].echoed + (s1 + s2);
  }

  /**
   * With no read in between, successive write-ready events on a client
   * never crash and act as `Drain`: the record's `outb` becomes what
   * `Drain` leaves and the peer's ledger gains exactly the bytes `Drain`
   * sends.
   */
  lemma {:induction false} WritesDrain(build: Build, m: Machine, fd: Fd, limits: seq<nat>)
    requires fd in m.table && m.table[fd].data.Client? && Writable(m.table[fd].events)
    requires fd in m.ledgers
    ensures Admissible(build, m, WriteEvents(fd, limits))
    ensures Run(build, m, WriteEvents(fd, limits)).Ok?
    ensures DrainedTo(m, Run(build, m, WriteEvents(fd, limits)).value, fd, limits)
    decreases |limits|
  {
    if |limits| > 0 {
      var ev := WriteEvent(fd, limits[0]);
      var rest := limits[1..];
      WriteStep(build, m, fd, limits[0]);
      var m1 := Step(build, m, ev).value;
      WritesDrain(build, m1, fd, rest);
      StepThenRun(build, m, ev, WriteEvents(fd, rest));
      assert WriteEvents(fd, limits) == [ev] + WriteEvents(fd, rest);
      DrainedCons(m, m1, Run(build, m1, WriteEvents(fd, rest)).value, fd, limits);
    } else {
      var c := m.table[fd].data.conn;
      assert m.table[fd].(data := Client(c)) == m.table[fd];
    }
  }

  /**
   * From any faithful state, write-ready events whose counts add up to a
   * client's pending bytes empty its buffer, and after them the peer has
   * been sent back everything it sent.
   */
  lemma PartialWritesConverge(build: Build, m: Machine, fd: Fd, limits: seq<nat>)
    requires Faithful(m)
    requires fd in m.table && m.table[fd].data.Client? && Writable(m.table[fd].events)
    requires Sum(limits) == |m.table[fd].data.conn.outb|
    ensures Admissible(build, m, WriteEvents(fd, limits))
    ensures Run(build, m, WriteEvents(fd, limits)).Ok?
    ensures var m' := Run(build, m, WriteEvents(fd, limits)).value;
      && fd in m'.table && m'.table[fd].data.Client? && m'.table[fd].data.conn.outb == []
      && fd in m'.ledgers && m'.ledgers[fd].echoed == m'.ledgers[fd].received
  {
    WritesDrain(build, m, fd, limits);
    assert DrainedTo(m, Run(build, m, WriteEvents(fd, limits)).value, fd, limits);
    DrainConverges(m.table[fd].data.conn, limits);
    assert m.ledgers[fd].echoed + m.table[fd].data.conn.outb == m.ledgers[fd].received;
  }
}

=== FILE: findings.dfy ===
/**
 * The close-then-send gap of the client handler. When one event carries
 * both read and write readiness, the read returns nothing and bytes are
 * still pending, the handler unregisters and closes the socket in its read
 * branch and then, in its write branch, sends on that closed socket; the
 * resulting exception ends the event loop. With kqueue the same send
 * happens through a second, stale key of the same poll. `Build.AsWritten`
 * keeps this behaviour; `Build.Patched` takes no socket action after a
 * close, and every property of `Audit` and `Convergence` is proved for
 * both builds.
 */
module Findings {
  import opened Wrappers
  import opened Selector
  import opened Connection
  import opened Server
  import opened Audit
  import opened Scenarios

  /**
   * As written: a peer that closes while bytes are still pending for it
   * crashes the server on the next read-and-write-ready event. Patched:
   * the same event just closes the connection, dropping the pending bytes.
   */
  lemma CloseWithPendingBytes(t: Table, fd: Fd, io: Io)
    requires fd in t && t[fd].data.Client? && |t[fd].data.conn.outb| > 0
    requires io.recvData == []
    ensures Service(AsWritten, t, fd, CLIENT_EVENTS, io) == Err(SendOnClosedSocket(fd))
    ensures Service(Patched, t, fd, CLIENT_EVENTS, io).Ok?
    ensures fd !in Service(Patched, t, fd, CLIENT_EVENTS, io).value.0
    ensures Service(Patched, t, fd, CLIENT_EVENTS, io).value.1 == Serviced(Wire(fd, [], [], true))
  {
    assert Readable(CLIENT_EVENTS) && Writable(CLIENT_EVENTS);
  }

  /** A peer connects, sends two bytes of which one is echoed at once, then closes. */
  function CloseThenSendTrace(): seq<Event> {
    [ Event(LFD, EVENT_READ, Io(PEER, PEER_ADDR, [], 0)),
      Event(PEER, CLIENT_EVENTS, Io(0, NO_ADDR, [0x68, 0x69], 1)),
      Event(PEER, CLIENT_EVENTS, Io(0, NO_ADDR, [], 8)) ]
  }

  /**
   * The crash is reachable from start-up through legal events: as
   * written, the third event raises on the closed socket.
   */
  lemma CloseThenSendReachable()
    ensures Admissible(AsWritten, Start(LFD), CloseThenSendTrace())
    ensures Run(AsWritten, Start(LFD), CloseThenSendTrace()) == Err(SendOnClosedSocket(PEER))
  {
    var evs := CloseThenSendTrace();
    var m1 := Step(AsWritten, Start(LFD), evs[0]).value;
    var m2 := Step(AsWritten, m1, evs[1]).value;
    assert m2.table[PEER].data.conn.outb == [0x69];
    CloseWithPendingBytes(m2.table, PEER, evs[2].io);
    assert evs[1..][1..] == [evs[2]];
  }

  /**
   * The corrected handler never raises: it agrees with the code as
   * written whenever that does not crash, and otherwise closes cleanly.
   */
  lemma PatchedNeverCrashes(t: Table, fd: Fd, mask: Events, io: Io)
    requires fd in t && t[fd].data.Client? && |io.recvData| <= RECV_SIZE
    ensures Service(Patched, t, fd, mask, io).Ok?
    ensures Service(AsWritten, t, fd, mask, io).Ok? ==>
      Service(Patched, t, fd, mask, io) == Service(AsWritten, t, fd, mask, io)
  {
  }

  /** On the same trace the patched server survives and has forgotten the peer. */
  lemma PatchedSurvivesTrace()
    ensures Admissible(Patched, Start(LFD), CloseThenSendTrace())
    ensures Run(Patched, Start(LFD), CloseThenSendTrace()).Ok?
    ensures Run(Patched, Start(LFD), CloseThenSendTrace()).value.table.Keys == {LFD}
    ensures Run(Patched, Start(LFD), CloseThenSendTrace()).value.ledgers == map[]
  {
    var evs := CloseThenSendTrace();
    var m1 := Step(Patched, Start(LFD), evs[0]).value;
    var m2 := Step(Patched, m1, evs[1]).value;
    assert m2.table[PEER].data.conn.outb == [0x69];
    CloseWithPendingBytes(m2.table, PEER, evs[2].io);
    assert evs[1..][1..] == [evs[2]];
  }

  /**
   * The same gap on kqueue. The peer connects and sends two bytes of which
   * one is echoed, each in a poll of its own; then it hangs up while a
   * byte is pending, and kqueue reports the hang-up and the write
   * readiness as two keys of the last poll.
   */
  function ConnectAndSend(): seq<seq<Event>> {
    [[CloseThenSendTrace()[0]], [CloseThenSendTrace()[1]]]
  }

  function HangUpSplit(): seq<Event> {
    [ Event(PEER, EVENT_READ, Io(0, NO_ADDR, [], 0)),
      Event(PEER, EVENT_WRITE, Io(0, NO_ADDR, [], 8)) ]
  }

  /** After the first two polls one byte is pending for the peer. */
  function Pending(): Machine {
    Machine(
      map[LFD := Key(EVENT_READ, Listener),
          PEER := Key(CLIENT_EVENTS, Client(Conn(PEER_ADDR, [], [0x69])))],
      map[PEER := Ledger([0x68, 0x69], [0x68])])
  }

  /** The peer right after it connected. */
  function JustConnected(): Machine {
    Machine(
      map[LFD := Key(EVENT_READ, Listener),
          PEER := Key(CLIENT_EVENTS, Client(Conn(PEER_ADDR, [], [])))],
      map[PEER := Ledger([], [])])
  }

  lemma ReachPending(build: Build)
    ensures Polls(build, Start(LFD), ConnectAndSend())
    ensures Loop(build, Start(LFD), ConnectAndSend()) == Ok(Pending())
  {
    var e := CloseThenSendTrace();
    SinglePoll(build, Start(LFD), e[0]);
    assert Step(build, Start(LFD), e[0]) == Ok(JustConnected());
    SinglePoll(build, JustConnected(), e[1]);
    var m2 := Step(build, JustConnected(), e[1]).value;
    assert m2.table[PEER].data.conn.outb == [0x69] && m2.ledgers[PEER] == Ledger([0x68, 0x69], [0x68]);
    assert m2.table == Pending().table;
    assert m2.ledgers == Pending().ledgers;
    assert ConnectAndSend()[1..][1..] == [];
  }

  /** The last poll: as written it crashes on the stale write key; patched it only closes. */
  lemma HangUpPoll(build: Build)
    ensures PollAdmissible(build, Pending(), map[], HangUpSplit())
    ensures build == AsWritten ==> RunPoll(build, Pending(), map[], HangUpSplit()) == Err(SendOnClosedSocket(PEER))
    ensures build == Patched ==>
      RunPoll(build, Pending(), map[], HangUpSplit()) == Ok(Machine(map[LFD := Key(EVENT_READ, Listener)], map[]))
  {
    var evs := HangUpSplit();
    var s := Turn(build, Pending(), map[], evs[0]);
    assert s.value.0.table == map[LFD := Key(EVENT_READ, Listener)];
    assert s.value.0.ledgers == map[];
    assert s.value.1 == map[PEER := Conn(PEER_ADDR, [], [0x69])];
    assert evs[1..][1..] == [];
  }

  /**
   * As written, the read key closes the socket and the stale write key
   * then sends the pending byte on it, which ends the loop.
   */
  lemma SplitKeysCrash()
    ensures !DistinctFds(HangUpSplit())
    ensures Polls(AsWritten, Start(LFD), ConnectAndSend() + [HangUpSplit()])
    ensures Loop(AsWritten, Start(LFD), ConnectAndSend() + [HangUpSplit()]) == Err(SendOnClosedSocket(PEER))
  {
    ReachPending(AsWritten);
    HangUpPoll(AsWritten);
    LoopAppend(AsWritten, Start(LFD), ConnectAndSend(), [HangUpSplit()]);
  }

  /** Patched, the stale write key is skipped and the loop goes on without the peer. */
  lemma PatchedSkipsStaleKey()
    ensures Polls(Patched, Start(LFD), ConnectAndSend() + [HangUpSplit()])
    ensures Loop(Patched, Start(LFD), ConnectAndSend() + [HangUpSplit()]).Ok?
    ensures Loop(Patched, Start(LFD), ConnectAndSend() + [HangUpSplit()]).value.table.Keys == {LFD}
    ensures Loop(Patched, Start(LFD), ConnectAndSend() + [HangUpSplit()]).value.ledgers == map[]
  {
    ReachPending(Patched);
    HangUpPoll(Patched);
    LoopAppend(Patched, Start(LFD), ConnectAndSend(), [HangUpSplit()]);
  }
}

=== FILE: scenarios.dfy ===
/** Concrete runs of the server from start-up. */
module Scenarios {
  import opened Wrappers
  import opened Selector
  import opened Connection
  import opened Server
  import opened Audit

  /** The listening socket's descriptor, the first client's, and that client's address. */
  const LFD: Fd := 3
  const PEER: Fd := 4
  const PEER_ADDR: Addr := Addr("::1", 50000)

  const HELLO: Bytes := [0x48, 0x65, 0x6c, 0x6c, 0x6f, 0x20, 0x57, 0x6f, 0x72, 0x6c, 0x64]

  /**
   * A peer connects and sends `Hello World` (11 bytes); the first event
   * receives them and the transport takes only 5, the next write-ready
   * event sends the rest.
   */
  function HelloTrace(): seq<Event> {
    [ Event(LFD, EVENT_READ, Io(PEER, PEER_ADDR, [], 0)),
      Event(PEER, CLIENT_EVENTS, Io(0, NO_ADDR, HELLO, 5)),
      Event(PEER, EVENT_WRITE, Io(0, NO_ADDR, [], 100)) ]
  }

  /** The peer gets back exactly `Hello World`, in two pieces, and nothing stays pending. */
  lemma HelloWorldEchoed(build: Build)
    ensures Admissible(build, Start(LFD), HelloTrace())
    ensures Run(build, Start(LFD), HelloTrace()).Ok?
    ensures var m := Run(build, Start(LFD), HelloTrace()).value;
      && PEER in m.table && m.table[PEER].data.Client? && m.table[PEER].data.conn.outb == []
      && PEER in m.ledgers && m.ledgers[PEER] == Ledger(HELLO, HELLO)
  {
    var evs := HelloTrace();
    var m1 := Step(build, Start(LFD), evs[0]).value;
    assert m1.table[PEER] == Key(CLIENT_EVENTS, Client(Conn(PEER_ADDR, [], [])));
    var m2 := Step(build, m1, evs[1]).value;
    assert m2.table[PEER].data.conn.outb == HELLO[5..] && m2.ledgers[PEER] == Ledger(HELLO, HELLO[..5]);
    assert HELLO[..5] + HELLO[5..] == HELLO;
    assert evs[1..][1..] == [evs[2]];
    assert Run(build, m2, [evs[2]]) == Step(build, m2, evs[2]);
  }

  const ADDR_X: Addr := Addr("::1", 50001)
  const ADDR_Y: Addr := Addr("::1", 50002)

  /** Two peers connect, one after the other: the listener is reported once per poll. */
  function ConnectTwo(): seq<Event> {
    [ Event(LFD, EVENT_READ, Io(4, ADDR_X, [], 0)),
      Event(LFD, EVENT_READ, Io(5, ADDR_Y, [], 0)) ]
  }

  /** Each peer sends one byte, `X` and `Y` respectively. */
  function SendTwo(): seq<Event> {
    [ Event(4, CLIENT_EVENTS, Io(0, NO_ADDR, [0x58], 1)),
      Event(5, CLIENT_EVENTS, Io(0, NO_ADDR, [0x59], 1)) ]
  }

  /** Both peers registered, nothing received yet. */
  function Connected(): Machine {
    Machine(
      map[LFD := Key(EVENT_READ, Listener),
          4 := Key(CLIENT_EVENTS, Client(Conn(ADDR_X, [], []))),
          5 := Key(CLIENT_EVENTS, Client(Conn(ADDR_Y, [], [])))],
      map[4 := Ledger([], []), 5 := Ledger([], [])])
  }

  lemma ConnectBoth(build: Build)
    ensures Admissible(build, Start(LFD), ConnectTwo())
    ensures Run(build, Start(LFD), ConnectTwo()) == Ok(Connected())
  {
  }

  lemma SendBoth(build: Build)
    ensures Admissible(build, Connected(), SendTwo())
    ensures Run(build, Connected(), SendTwo()).Ok?
    ensures var m := Run(build, Connected(), SendTwo()).value;
      && 4 in m.ledgers && m.ledgers[4] == Ledger([0x58], [0x58])
      && 5 in m.ledgers && m.ledgers[5] == Ledger([0x59], [0x59])
  {
    var m1 := Step(build, Connected(), SendTwo()[0]).value;
    assert m1.ledgers[4] == Ledger([0x58], [0x58]) && m1.table[5] == Connected().table[5];
  }

  /** Independent connections: `X` goes back only to the first peer and `Y` only to the second. */
  lemma TwoPeersIsolated(build: Build)
    ensures Admissible(build, Start(LFD), ConnectTwo() + SendTwo())
    ensures Run(build, Start(LFD), ConnectTwo() + SendTwo()).Ok?
    ensures var m := Run(build, Start(LFD), ConnectTwo() + SendTwo()).value;
      && 4 in m.ledgers && m.ledgers[4] == Ledger([0x58], [0x58])
      && 5 in m.ledgers && m.ledgers[5] == Ledger([0x59], [0x59])
  {
    ConnectBoth(build);
    SendBoth(build);
    RunAppend(build, Start(LFD), ConnectTwo(), SendTwo());
  }

  const ADDR_Z: Addr := Addr("::1", 50003)

  /**
   * One poll in which the first peer hangs up and the listener is ready
   * too: descriptor 4 is closed before the accept runs, so `accept` may
   * hand out the number 4 again within the same batch.
   */
  function HangUpAndReconnect(): seq<Event> {
    [ Event(4, EVENT_READ, Io(0, NO_ADDR, [], 0)),
      Event(LFD, EVENT_READ, Io(4, ADDR_Z, [], 0)) ]
  }

  /**
   * That batch is a poll result the loop accepts, and afterwards
   * descriptor 4 belongs to the new peer with an empty buffer and an
   * empty ledger, while the second peer is untouched.
   */
  lemma DescriptorReusedInOnePoll(build: Build)
    ensures Polls(build, Connected(), [HangUpAndReconnect()])
    ensures Loop(build, Connected(), [HangUpAndReconnect()]).Ok?
    ensures var m := Loop(build, Connected(), [HangUpAndReconnect()]).value;
      && 4 in m.table && m.table[4] == Key(CLIENT_EVENTS, Client(Conn(ADDR_Z, [], [])))
      && 4 in m.ledgers && m.ledgers[4] == Ledger([], [])
      && 5 in m.table && m.table[5] == Connected().table[5]
  {
  }
}

=== FILE: selector.dfy ===
/**
 * The registration table of a readiness selector (Python's `selectors`
 * module as the server uses it): a map from descriptor to the interest set
 * and the opaque attachment registered with it.
 */
module Selector {
  import opened Wrappers

  /** Descriptors are abstract non-negative ids; sockets themselves are not modelled. */
  type Fd = nat

  /** An interest set or a ready mask: bit 0 is readable, bit 1 is writable. */
  type Events = bv2

  const EVENT_READ: Events := 1
  const EVENT_WRITE: Events := 2

  predicate Readable(mask: Events) {
    mask & EVENT_READ != 0
  }

  predicate Writable(mask: Events) {
    mask & EVENT_WRITE != 0
  }

  /** What the selector keeps for one registered descriptor. */
  datatype Key<D> = Key(events: Events, data: D)

  type Registry<D> = map<Fd, Key<D>>

  datatype SelectorError =
    | InvalidEvents(events: Events)
    | AlreadyRegistered(fd: Fd)
    | NotRegistered(fd: Fd)

  /**
   * Adds one registration. An empty interest set is refused first, then a
   * descriptor that is already registered; otherwise exactly one entry is
   * added and no existing entry changes.
   */
  function Register<D>(reg: Registry<D>, fd: Fd, events: Events, data: D): (r: Result<Registry<D>, SelectorError>)
    ensures r.Ok? <==> events != 0 && fd !in reg
    ensures events == 0 ==> r == Err(InvalidEvents(events))
    ensures events != 0 && fd in reg ==> r == Err(AlreadyRegistered(fd))
    ensures r.Ok? ==> r.value.Keys == reg.Keys + {fd}
    ensures r.Ok? ==> r.value[fd] == Key(events, data)
    ensures r.Ok? ==> forall f :: f in reg ==> r.value[f] == reg[f]
  {
    if events == 0 then Err(InvalidEvents(events))
    else if fd in reg then Err(AlreadyRegistered(fd))
    else Ok(reg[fd := Key(events, data)])
  }

  /**
   * Removes one registration. A descriptor that is not registered is
   * refused with a "not found" error; otherwise exactly that entry goes
   * and every other entry is kept as it was.
   */
  function Unregister<D>(reg: Registry<D>, fd: Fd): (r: Result<Registry<D>, SelectorError>)
    ensures r.Ok? <==> fd in reg
    ensures r.Err? ==> r.error == NotRegistered(fd)
    ensures r.Ok? ==> r.value.Keys == reg.Keys - {fd}
    ensures r.Ok? ==> forall f :: f in r.value ==> r.value[f] == reg[f]
  {
    if fd in reg then Ok(reg - {fd}) else Err(NotRegistered(fd))
  }

  /** A mask the selector can report for a registration: non-empty and within its interest set. */
  predicate Reportable<D>(reg: Registry<D>, fd: Fd, mask: Events) {
    fd in reg && mask != 0 && mask & reg[fd].events == mask
  }

  /** Unregistering a descriptor twice: the second call is refused, not a crash of the table. */
  lemma UnregisterTwice<D>(reg: Registry<D>, fd: Fd)
    requires fd in reg
    ensures Unregister(reg, fd).Ok?
    ensures Unregister(Unregister(reg, fd).value, fd) == Err(NotRegistered(fd))
  {
  }

  /** Register and unregister are inverse on a descriptor that was free. */
  lemma RegisterThenUnregister<D>(reg: Registry<D>, fd: Fd, events: Events, data: D)
    requires events != 0 && fd !in reg
    ensures Register(reg, fd, events, data).Ok?
    ensures Unregister(Register(reg, fd, events, data).value, fd) == Ok(reg)
  {
    var r := Register(reg, fd, events, data).value;
    assert r - {fd} == reg;
  }
}

=== FILE: server.dfy ===
/**
 * The server proper: the listening registration, the acceptor, the
 * per-connection read-then-write handler and the dispatch rule of the
 * event loop, each as a pure step on the registration table. Socket I/O
 * results arrive as an `Io` value chosen by the environment.
 */
module Server {
  import opened Wrappers
  import opened Selector
  import opened Connection

  /** The attachment of a registration: the listener's `None` sentinel or a client record. */
  datatype Attachment = Listener | Client(conn: Conn)

  type Table = Registry<Attachment>

  /** Interest set of every accepted client. */
  const CLIENT_EVENTS: Events := EVENT_READ | EVENT_WRITE

  /**
   * What the operating system answers during one event: the descriptor
   * and peer address `accept` yields, the bytes `recv` returns, and how many
   * bytes the transport takes in `send` (clipped to the pending buffer, so
   * every count from 0 up to the buffer length is covered).
   */
  datatype Io = Io(acceptFd: Fd, acceptAddr: Addr, recvData: Bytes, sendLimit: nat)

  /** The accept address of an `Io` for an event that does not accept; the handler never looks at it. */
  const NO_ADDR: Addr := Addr("", 0)

  /** One ready descriptor reported by the selector, with the I/O results of its handling. */
  datatype Event = Event(fd: Fd, mask: Events, io: Io)

  /**
   * `AsWritten` is the handler as the code stands. `Patched` takes no
   * socket action once the connection is closed: it skips the write
   * branch after its own read branch closed the socket, and it skips a
   * ready key whose connection an earlier key of the same poll closed.
   */
  datatype Build = AsWritten | Patched

  /** Exceptions that escape a handler and end the event loop. */
  datatype Crash =
    | SelectorFailed(err: SelectorError)
    | SendOnClosedSocket(fd: Fd)
    | RecvOnClosedSocket(fd: Fd)

  /** What a client handler did on the wire for one event. */
  datatype Wire = Wire(fd: Fd, received: Bytes, sent: Bytes, closed: bool)

  datatype Outcome = Accepted(fd: Fd, addr: Addr) | Serviced(wire: Wire)

  /** A client record just accepted from `addr`: both buffers empty. */
  function Fresh(addr: Addr): (c: Conn)
    ensures c.addr == addr && c.inb == [] && c.outb == []
  {
    Conn(addr, [], [])
  }

  /** The table after the listening socket is registered, read interest only, no attachment. */
  function Listen(lfd: Fd): (t: Table)
    ensures t.Keys == {lfd}
    ensures t[lfd].events == EVENT_READ && !Writable(t[lfd].events)
    ensures t[lfd].data == Listener
  {
    Register(map[], lfd, EVENT_READ, Listener).value
  }

  /**
   * Accept one connection: exactly one new registration, for read and
   * write, carrying a fresh record with the accepted address. Registering
   * a descriptor the table already holds raises, as the selector does.
   */
  function Accept(t: Table, io: Io): (r: Result<(Table, Outcome), Crash>)
    ensures r.Ok? <==> io.acceptFd !in t
    ensures r.Err? ==> r.error == SelectorFailed(AlreadyRegistered(io.acceptFd))
    ensures r.Ok? ==> r.value.0.Keys == t.Keys + {io.acceptFd}
    ensures r.Ok? ==> r.value.0[io.acceptFd] == Key(CLIENT_EVENTS, Client(Fresh(io.acceptAddr)))
    ensures r.Ok? ==> forall f :: f in t ==> r.value.0[f] == t[f]
    ensures r.Ok? ==> r.value.1 == Accepted(io.acceptFd, io.acceptAddr)
  {
    match Register(t, io.acceptFd, CLIENT_EVENTS, Client(Fresh(io.acceptAddr)))
    case Ok(t') => Ok((t', Accepted(io.acceptFd, io.acceptAddr)))
    case Err(e) => Err(SelectorFailed(e))
  }

  /** State between the read branch and the write branch of one handler call. */
  datatype AfterRead = AfterRead(table: Table, conn: Conn, received: Bytes, closed: bool)

  /**
   * The read branch: skipped without read readiness; a non-empty receive
   * is appended to `outb`; an empty receive unregisters and closes. The
   * record the write branch sees afterwards is the local one, live or not.
   */
  function ReadHalf(t: Table, fd: Fd, mask: Events, io: Io): (r: Result<AfterRead, Crash>)
    requires fd in t && t[fd].data.Client?
  {
    var c := t[fd].data.conn;
    if !Readable(mask) then
      Ok(AfterRead(t, c, [], false))
    else if |io.recvData| > 0 then
      var c' := c.(outb := c.outb + io.recvData);
      Ok(AfterRead(t[fd := t[fd].(data := Client(c'))], c', io.recvData, false))
    else
      match Unregister(t, fd)
      case Ok(t') => Ok(AfterRead(t', c, [], true))
      case Err(e) => Err(SelectorFailed(e))
  }

  /**
   * The write branch: with write readiness and a non-empty `outb`, one
   * send. After a close the code as written still sends, on a closed
   * socket; the patched build takes no write action.
   */
  function WriteHalf(build: Build, fd: Fd, mask: Events, io: Io, a: AfterRead): (r: Result<(Table, Outcome), Crash>)
    requires !a.closed ==> fd in a.table
  {
    if !Writable(mask) || |a.conn.outb| == 0 then
      Ok((a.table, Serviced(Wire(fd, a.received, [], a.closed))))
    else if a.closed then
      match build
      case AsWritten => Err(SendOnClosedSocket(fd))
      case Patched => Ok((a.table, Serviced(Wire(fd, a.received, [], true))))
    else
      var (c', sent) := Transmit(a.conn, io.sendLimit);
      Ok((a.table[fd := a.table[fd].(data := Client(c'))], Serviced(Wire(fd, a.received, sent, false))))
  }

  /**
   * Handle one ready client: read first, then write.
   *
   * Crashes exactly when the code as written sends on the socket it just
   * closed. Otherwise: the socket is closed iff a read returned nothing,
   * and then its registration is gone; if it stays open its interest set,
   * address and `inb` are kept and the bytes sent followed by the new
   * `outb` are the old `outb` followed by the bytes received; a receive
   * adds at most `RECV_SIZE` bytes. No other registration changes.
   */
  function Service(build: Build, t: Table, fd: Fd, mask: Events, io: Io): (r: Result<(Table, Outcome), Crash>)
    requires fd in t && t[fd].data.Client?
    requires |io.recvData| <= RECV_SIZE
    ensures r.Err? <==>
      build == AsWritten && Readable(mask) && |io.recvData| == 0 && Writable(mask) && |t[fd].data.conn.outb| > 0
    ensures r.Err? ==> r.error == SendOnClosedSocket(fd)
    ensures r.Ok? ==> r.value.1.Serviced? && r.value.1.wire.fd == fd
    ensures r.Ok? ==> (r.value.1.wire.closed <==> Readable(mask) && |io.recvData| == 0)
    ensures r.Ok? ==> r.value.1.wire.received == (if Readable(mask) then io.recvData else [])
    ensures r.Ok? ==> |r.value.1.wire.received| <= RECV_SIZE
    ensures r.Ok? && r.value.1.wire.closed ==> r.value.0.Keys == t.Keys - {fd} && r.value.1.wire.sent == []
    ensures r.Ok? && !r.value.1.wire.closed ==>
      && r.value.0.Keys == t.Keys
      && r.value.0[fd].events == t[fd].events
      && r.value.0[fd].data.Client?
      && r.value.0[fd].data.conn.addr == t[fd].data.conn.addr
      && r.value.0[fd].data.conn.inb == t[fd].data.conn.inb
      && r.value.1.wire.sent + r.value.0[fd].data.conn.outb == t[fd].data.conn.outb + r.value.1.wire.received
    ensures r.Ok? && !r.value.1.wire.closed && Writable(mask) ==>
      |r.value.1.wire.sent| == Min(io.sendLimit, |t[fd].data.conn.outb + r.value.1.wire.received|)
    ensures r.Ok? && !Writable(mask) ==> r.value.1.wire.sent == []
    ensures r.Ok? ==> forall f :: f in r.value.0 && f != fd ==> f in t && r.value.0[f] == t[f]
  {
    match ReadHalf(t, fd, mask, io)
    case Err(e) => Err(e)
    case Ok(a) => WriteHalf(build, fd, mask, io, a)
  }

  /**
   * The dispatch rule of the event loop: an event on the registration
   * whose attachment is the sentinel goes to the acceptor, any other to
   * the client handler. So listener events only ever add a registration
   * and leave the listener's own entry alone, and client events never add
   * one.
   */
  function Dispatch(build: Build, t: Table, ev: Event): (r: Result<(Table, Outcome), Crash>)
    requires ev.fd in t
    requires |ev.io.recvData| <= RECV_SIZE
    ensures t[ev.fd].data.Listener? ==> r == Accept(t, ev.io)
    ensures t[ev.fd].data.Listener? && r.Ok? ==> r.value.1.Accepted? && r.value.0[ev.fd] == t[ev.fd]
    ensures t[ev.fd].data.Client? ==> r == Service(build, t, ev.fd, ev.mask, ev.io)
    ensures t[ev.fd].data.Client? && r.Ok? ==> r.value.1.Serviced? && r.value.0.Keys <= t.Keys
  {
    match t[ev.fd].data
    case Listener => Accept(t, ev.io)
    case Client(_) => Service(build, t, ev.fd, ev.mask, ev.io)
  }

  /**
   * The handler run on a ready key whose connection an earlier key of the
   * same poll already closed: kqueue reports read and write readiness of
   * one socket as two keys, both looked up when the poll returned. The
   * code as written still reads or writes on the closed socket, using the
   * record as it was at the close: a read raises, a write raises when
   * bytes are pending, and otherwise nothing happens. The patched build
   * skips the key.
   */
  function Stale(build: Build, fd: Fd, mask: Events, c: Conn): (r: Result<(), Crash>)
    ensures r.Err? <==> build == AsWritten && (Readable(mask) || (Writable(mask) && |c.outb| > 0))
    ensures r.Err? && Readable(mask) ==> r.error == RecvOnClosedSocket(fd)
    ensures r.Err? && !Readable(mask) ==> r.error == SendOnClosedSocket(fd)
  {
    match build
    case Patched => Ok(())
    case AsWritten =>
      if Readable(mask) then Err(RecvOnClosedSocket(fd))
      else if Writable(mask) && |c.outb| > 0 then Err(SendOnClosedSocket(fd))
      else Ok(())
  }

  /**
   * Read-before-write: bytes received in an event are already visible to
   * that event's send, so an idle connection echoes a whole receive in the
   * same event when the transport takes it all.
   */
  lemma ReadBeforeWrite(build: Build, t: Table, fd: Fd, io: Io)
    requires fd in t && t[fd].data.Client? && t[fd].data.conn.outb == []
    requires 0 < |io.recvData| <= RECV_SIZE && io.sendLimit >= |io.recvData|
    ensures Service(build, t, fd, CLIENT_EVENTS, io).Ok?
    ensures Service(build, t, fd, CLIENT_EVENTS, io).value.1.wire.sent == io.recvData
    ensures Service(build, t, fd, CLIENT_EVENTS, io).value.0[fd].data.conn.outb == []
  {
    var r := Service(build, t, fd, CLIENT_EVENTS, io);
    assert Readable(CLIENT_EVENTS) && Writable(CLIENT_EVENTS);
    var w := r.value.1.wire;
    assert |w.sent| == |io.recvData|;
    assert w.sent + r.value.0[fd].data.conn.outb == io.recvData;
  }

  /**
   * Splitting one read-and-write readiness into a read key followed by a
   * write key, as kqueue does, ends where the combined handler call ends.
   * If the read keeps the socket open, the write key finishes with the
   * same table, the same bytes sent and the same closing flag. If the read
   * closes it, the write key is stale and crashes exactly when the
   * combined call does.
   */
  lemma SplitReadWrite(build: Build, t: Table, fd: Fd, io: Io)
    requires fd in t && t[fd].data.Client? && |io.recvData| <= RECV_SIZE
    ensures var r := Service(build, t, fd, EVENT_READ, io);
      var both := Service(build, t, fd, CLIENT_EVENTS, io);
      && r.Ok?
      && (!r.value.1.wire.closed ==>
            var w := Service(build, r.value.0, fd, EVENT_WRITE, io);
            && both.Ok? && w.Ok?
            && w.value.0 == both.value.0
            && r.value.1.wire.received + w.value.1.wire.received == both.value.1.wire.received
            && w.value.1.wire.sent == both.value.1.wire.sent
            && !both.value.1.wire.closed)
      && (r.value.1.wire.closed ==>
            && (Stale(build, fd, EVENT_WRITE, t[fd].data.conn).Err? <==> both.Err?)
            && (both.Ok? ==> both.value.0 == r.value.0 && both.value.1.wire.closed))
  {
    assert Readable(EVENT_READ) && !Writable(EVENT_READ);
    assert Writable(EVENT_WRITE) && !Readable(EVENT_WRITE);
    assert Readable(CLIENT_EVENTS) && Writable(CLIENT_EVENTS);
  }
}

=== FILE: wrappers.dfy ===
/** The result type shared by every module of the model. */
module Wrappers {

  /** Either the value an operation produced or the error it raised. */
  datatype Result<+T, +E> = Ok(value: T) | Err(error: E)
}
